=== FILE: README.md ===
# Random regression tree learner, modelled in Dafny

This project models `RTLearner`, a random regression tree learner. It has three parts:

- **Building a tree.** A private recursive builder turns a training set (a matrix `X` of feature rows and a vector `Y` of targets) into a tree. It does this as follows:
  - A *leaf* holds the most common target. A leaf is made when there are at most `leaf_size` samples or all targets are equal.
  - Otherwise the builder repeatedly picks a random feature from a pool of candidates and two random rows (redrawn while they coincide and there is more than one row). It splits at the mean of that feature at the two rows.
  - A split that leaves one side empty removes the feature from the pool. An empty pool gives a leaf.
  - An accepted split gives a root row followed by the left subtree (rows whose feature is at most the split value) and the right subtree.
- **Storage.** The tree is stored as a flat table: one row per node in pre-order. An internal row holds the feature, the split value, and the *relative* row offsets of its two children. A leaf row holds the predicted value.
- **Querying.** A query walks each point from row 0 down to a leaf. Fitting a learner that already has a table stacks the new table below the old one.

The model has seven modules, one per file:

- **`Tables`** (`tables.dfy`): rows, tables, and the shape predicates `Forward`, `Fits` and `PreOrder`. `Join` is the pre-order assembly of a root row over two subtrees.
- **`TreeQuery`** (`query.dfy`): the tree walk `Search` and its ghost twin `Reach`, which returns the index of the leaf row reached.
- **`Stats`** (`stats.dfy`): `Count` and `Mode`. `Mode` is the most common target, with ties going to the value seen first. That is what `Counter(...).most_common(1)` returns, because a `Counter` iterates in first-insertion order and `max` keeps the first of equal keys.
- **`Samples`** (`samples.dfy`): training sets, and the boolean-mask row selection `dataX[mask]`.
- **`Builder`** (`builder.dfy`): the builder.
  - There are three specification functions: `DrawRows`, `SearchSplit` and `Grow`.
  - Three imperative methods are proved equal to them: `SampleRows`, `FindSplit` and `BuildTree`. `SampleRows` and `FindSplit` have the source's two `while` loops, and `BuildTree` is the source's recursive builder.
- **`GrowFacts`** (`grow_facts.dfy`): properties of built tables.
- **`Learners`** (`learner.dfy`): the learner as a class. Its `tree` field is an optional table that `AddEvidence` reassigns.

Randomness is an explicit *tape* of natural numbers, read front to back:

- `np.random.choice(pool)` consumes one draw `d` and yields `pool[d % |pool|]`.
- `np.random.randint(0, n)` consumes one draw `d` and yields `d % n`.
- A tape that runs dry ends the build with `RanOut`. Every property is stated for every tape.

The main results are:

- **Well-formedness.** Every built table is a full binary tree in pre-order. Every offset points forward and stays inside the table, every feature read exists, and the row count is odd and at most `2|Y| - 1` (`GrowWellFormed`).
- **Routing consistency** (`GrowPure`, `GrowAllReached`, `QueryTrainingPoint`). Every leaf of a built tree is reached by at least one training sample, and it stores the most common target of exactly the samples whose query walk ends there. So querying a training point returns the mode of its own leaf group, and that group contains the point's target.
- **The split is exact** (`SplitExact`, `SplitPartition`). Each sample goes to exactly one side, and an accepted split leaves both sides non-empty and smaller.
- **The search loop** makes at most one round per feature: each rejected round removes its feature once, so the rounds are at most the number of features, and an accepted feature is one still in the pool (`SearchRounds`). The search and the whole build read a prefix of the tape (`SearchLeavesSuffix`, `GrowLeavesSuffix`). When all rows are identical it never accepts a split, whatever the draws, so the tree is one leaf (`NoSplitOnIdenticalRows`, `IdenticalRowsGiveLeaf`).
- **Refitting.** Fitting a learner that already has a table stacks the new table below the old one. The proof shows that walks from row 0 never leave the old table, so predictions are unchanged by a refit (`AppendedTableAnswersAsBefore`).

## Model

| member | source | states |
|---|---|---|
| Tables.Join | RTLearner.py:100-102 | the stacked table is the root row, then the left subtree's rows, then the right subtree's, one row more than the two together |
| Tables.JoinPreOrder | RTLearner.py:92-102 | a root row over two pre-order subtrees, left offset 1 and right offset past the left subtree, is again a pre-order full binary tree |
| Tables.RootRowJoin | RTLearner.py:95-102 | the root row the builder writes (right start 2 for a one-row left subtree, `|left| + 1` otherwise) always gives the pre-order join |
| Tables.JoinFits | RTLearner.py:100-102 | a joined table reads only features below a width that its root feature and both subtrees respect |
| Tables.ForwardConcat | RTLearner.py:152-153 | stacking two tables whose offsets point forward and in bounds keeps every offset forward and in bounds |
| Tables.PreOrderForward | RTLearner.py:92-102 | every pre-order table has forward, in-bounds offsets and an odd number of rows |
| TreeQuery.Reach | RTLearner.py:118-130 | the walk from a row, left on `x[feat] <= split` and right otherwise, ends at a leaf row at or after that row |
| TreeQuery.Search | RTLearner.py:105-132 | the walk from a row returns the value stored at the leaf row that the comparisons (`<=` goes left) lead to |
| TreeQuery.SearchEndsAtLeaf | RTLearner.py:118-122 | the prediction is the value of some leaf row at or below the starting row |
| TreeQuery.ReachShift | RTLearner.py:124-130 | offsets are relative: a walk inside a table embedded at row o of a larger table reaches the same leaf, shifted by o |
| TreeQuery.ReachJoin | RTLearner.py:124-130 | from the root of a joined tree a point goes into the left subtree iff `x[f] <= split`, and then walks that subtree as if it stood alone |
| TreeQuery.AppendKeepsSearch | RTLearner.py:152-153 | stacking a second table below a forward table changes no prediction made from row 0 |
| Stats.Count | RTLearner.py:53 | the number of occurrences of a value among the targets, at most their number |
| Stats.CountTally | RTLearner.py:53 | that count is the value's multiplicity in the targets, the tally `Counter(dataY)` keeps |
| Stats.AllSame | RTLearner.py:56 | for non-empty targets, all are equal exactly when the set of distinct targets is the singleton of the first, as `len(np.unique(dataY)) == 1` tests |
| Stats.ModeFrom | RTLearner.py:53 | the first-maximum scan returns a position of the targets; it stays put or moves to a scanned position, and never to a less common value |
| Stats.CountIn | RTLearner.py:53 | a value has a positive count iff it is one of the targets |
| Stats.Mode | RTLearner.py:53 | the leaf value `most_common(1)[0][0]` is one of the targets (its full characterisation is `ModeIsMostCommon`) |
| Stats.ModeFromBest | RTLearner.py:53 | the first-maximum scan ends at a most common value, strictly more common than every earlier value |
| Stats.ModeIsMostCommon | RTLearner.py:53 | the leaf value occurs in the targets, no value is more common, and among equally common values it is the one met first |
| Stats.ModeOfUniform | RTLearner.py:53-57 | when all targets are equal the leaf value is that target |
| Samples.LeftMask | RTLearner.py:78 | the left mask marks exactly the rows whose feature f is at most the split value |
| Samples.RightMask | RTLearner.py:79 | the right mask marks exactly the rows whose feature f exceeds the split value |
| Samples.Splits | RTLearner.py:82 | a mask splits when it has both a true and a false entry (the source's test that it has two distinct values) |
| Samples.Select | RTLearner.py:92-93 | selecting by a mask keeps the elements at its true positions, as many as it has true entries |
| Samples.SelectWidth | RTLearner.py:92-93 | selecting rows of one width gives rows of that width |
| Samples.SelectComplement | RTLearner.py:78-79 | selecting with a mask and with its complement partitions the rows: the two multisets add up to the whole |
| Samples.SplitExact | RTLearner.py:77-83 | the `<=` and `>` masks partition both X and Y as multisets, and the split is accepted iff both sides are non-empty |
| Samples.SplitPartition | RTLearner.py:82-93 | an accepted split leaves two non-empty training sets of the same width whose sizes add up to the whole and are each smaller |
| Samples.DistinctValuesSplit | RTLearner.py:73-83 | splitting at the mean of two different feature values always separates them, so it is accepted |
| Builder.Range | RTLearner.py:59 | the initial pool is the features 0 .. w-1 in order |
| Builder.RemoveFirst | RTLearner.py:85 | removing a rejected feature takes exactly one copy of it out of the pool |
| Builder.DrawRows | RTLearner.py:66-71 | the sampled rows are in range, distinct when there is more than one row, and the draws left are a suffix of the tape at least two shorter |
| Builder.SampleRows | RTLearner.py:66-71 | the source's redraw loop returns exactly the pair that `DrawRows` specifies |
| Builder.SearchSplit | RTLearner.py:59-89 | an accepted feature comes from the pool and its split leaves both sides non-empty |
| Builder.SearchStep | RTLearner.py:61-85 | one round accepts the drawn feature when its split separates the rows and otherwise continues with that feature removed from the pool |
| Builder.SearchRounds | RTLearner.py:62-85 | the search completes at most |pool| rounds; an accepted feature is still in the remaining pool, which is a sub-multiset of the original with exactly |pool| - rounds + 1 members (one removal per rejected round) |
| Builder.RoundsAccepted | RTLearner.py:82-83 | a round whose split separates the rows is the last round |
| Builder.RoundsRejected | RTLearner.py:85 | a rejected round is followed by the rounds over the pool with that feature removed |
| Builder.SearchLeavesSuffix | RTLearner.py:62-85 | the draws the search leaves are what remains of the tape after a prefix |
| Builder.SearchSplitValue | RTLearner.py:64-75 | an accepted split value is the mean of the accepted feature at two rows that differ when there is more than one row |
| Builder.Grow | RTLearner.py:32-102 | a built table is pre-order, tests only existing features and has at most `2|Y| - 1` rows |
| Builder.FindSplit | RTLearner.py:59-89 | the source's split-search loop ends exactly as `SearchSplit` over the full feature pool specifies |
| Builder.BuildTree | RTLearner.py:32-102 | the source's recursive builder returns exactly the table and leftover draws that `Grow` specifies |
| GrowFacts.GroupOfLeaf | RTLearner.py:53-57 | a one-leaf table routes every sample to row 0, whose group is all of Y |
| GrowFacts.LeafIsPure | RTLearner.py:53-57 | a leaf holding the mode of all targets is pure |
| GrowFacts.InOwnGroup | RTLearner.py:125-130 | every training sample belongs to the group of the leaf its walk reaches |
| GrowFacts.JoinWalkable | RTLearner.py:92-102 | a joined table and both its subtrees can be walked by rows of the tree's width |
| GrowFacts.GroupLeft | RTLearner.py:92 | the samples that reach a left-subtree leaf of the joined tree are exactly those of the `<=` half that reach it in the left subtree alone, in order |
| GrowFacts.GroupRight | RTLearner.py:93 | the same for a right-subtree leaf and the `>` half |
| GrowFacts.PureLeftRow | RTLearner.py:92 | a reached left-subtree leaf of a joined tree stores the mode of its group when the left subtree is pure over its half |
| GrowFacts.PureRightRow | RTLearner.py:93 | the same for the right subtree |
| GrowFacts.JoinPure | RTLearner.py:92-102 | purity of both subtrees over their halves gives purity of the joined tree over all samples |
| GrowFacts.GrowPure | RTLearner.py:32-102 | every leaf of a built tree that samples reach stores the most common target of exactly those samples |
| GrowFacts.JoinReached | RTLearner.py:82-102 | when every leaf of each subtree is reached by a sample of its half, every leaf of the joined table is reached by a training sample |
| GrowFacts.GrowAllReached | RTLearner.py:52-102 | every leaf row of a built table is reached by the walk of at least one training sample, because :82 accepts a split only when both sides keep a sample; so `GrowPure` covers every leaf |
| GrowFacts.QueryTrainingPoint | RTLearner.py:125-130 | querying a training point returns the mode of the samples routed to the same leaf, a group that contains its own target |
| GrowFacts.GrowLeafRule | RTLearner.py:52-57 | at most leafSize samples or equal targets give one leaf with the most common target (the common target when all are equal), with no draws used |
| GrowFacts.GrowWellFormed | RTLearner.py:92-102 | a built table is pre-order with forward in-bounds offsets, fits the width, has an odd row count and at most `2|Y| - 1` rows |
| GrowFacts.GrowLeavesSuffix | RTLearner.py:32-102 | a build reads a prefix of the tape: the left subtree reads after the search, the right subtree after the left |
| GrowFacts.NoSplitOnIdenticalRows | RTLearner.py:62-85 | with identical rows no feature of the pool is ever accepted, whatever the draws |
| GrowFacts.IdenticalRowsGiveLeaf | RTLearner.py:87-89 | with identical rows the pool runs out and the tree is one leaf holding the most common target |
| GrowFacts.TwoRowSearch | RTLearner.py:62-83 | two rows with one differing feature: the search never exhausts the pool and any accepted split is on feature 0 at the mean |
| GrowFacts.TwoRowHalves | RTLearner.py:78-79 | that split sends the lower row with its target left and the other right |
| GrowFacts.SingleSample | RTLearner.py:56-57 | a single sample becomes a single leaf holding its target, with no draws used |
| GrowFacts.ModeOfTwo | RTLearner.py:53 | of two different targets the first is the leaf value (a tie goes to the first) |
| GrowFacts.TwoSamplesTie | RTLearner.py:53-57 | two samples with different targets and leafSize >= 2 give one leaf holding the first target |
| GrowFacts.GrowAccepted | RTLearner.py:88-102 | with the leaf rule off and a split accepted, the table is the join of the left and right subtrees built in that order from successive draws |
| GrowFacts.TwoSamplesSearch | RTLearner.py:59-89 | for two samples with one differing feature, a search that does not run dry accepts feature 0 at the mean |
| GrowFacts.TwoSamplesHalves | RTLearner.py:92-93 | each half of that split is one sample and becomes one leaf |
| GrowFacts.TwoSamplesGrow | RTLearner.py:32-102 | with two samples whose one feature differs, different targets and leafSize < 2, the build is the join of the two one-sample leaves, lower value on the left |
| GrowFacts.TwoSamplesSplit | RTLearner.py:59-102 | for any draws that do not run dry, a build on two samples whose one feature differs, with different targets and leafSize < 2, gives exactly three rows: split on feature 0 at the mean, then the lower sample's target, then the other's |
| Learners.Learner.constructor | RTLearner.py:12-27 | the learner keeps the given leaf size and its own copy of the given table |
| Learners.Learner.AddEvidence | RTLearner.py:135-157 | fitting stores the built table when there was none and stacks it below the existing table otherwise; the learner is unchanged when the draws run out |
| Learners.Learner.Query | RTLearner.py:163-176 | one prediction per point, in order, each the tree walk from row 0 |
| Learners.Learner.SetRow | RTLearner.py:219 | overwriting one row of the table changes that row only |
| Learners.CopyThenEdit | RTLearner.py:211-220 | a learner created from another's table holds an equal table, and editing it leaves the original's table unchanged (this follows from value semantics, see Left out) |
| Learners.AppendedTableAnswersAsBefore | RTLearner.py:145-153 | refitting a learner stacks a table whose rows are never reached from row 0: every prediction for a point wide enough for both tables is what the old table gave |
| Learners.FreshTableQueryable | RTLearner.py:145-149 | the first fit leaves a table with forward offsets that reads only existing features |

## Left out

- Randomness: `np.random.choice` and `np.random.randint` are modelled as reads from a finite tape of draws, not as a probability distribution. In the source the pair redraw ends with probability one. In the model a dry tape ends the build with `RanOut`; the source has no such outcome.
- The `verbose` flag and `get_learner_info`: these only print or build a display frame, so they are not modelled.
- The `__main__` demonstration block: it only prints and runs the demo; its copy-then-edit step is `CopyThenEdit`.
- Numeric encoding: the table is a sequence of `Leaf`/`Node` rows, not a float matrix with feature index -1, NaN filler and float offsets. The `ndim` test and `expand_dims` reshaping are therefore absent, and `Tables.RootRowJoin` proves that the two ways of computing the right start agree.
- Floating point: features, targets and split means are exact reals. NaN, rounding and infinities are not modelled.
- The unused `pearsonr` import is not modelled.
- Shapes: a non-rectangular `X`, or `X` and `Y` of different lengths, is excluded by the `Sample` precondition instead of producing a numpy error.
- Empty training set: an empty training set (where `most_common(1)[0]` raises) is excluded by the same precondition.
- Learners.Learner.Query: requires that the table's offsets point forward and that every point is wide enough for the features the table reads. This requires covers every row, including rows no walk reaches. It therefore also excludes a point that is too narrow only for a table stacked by a wider refit; the source answers such a point from the first table.
- Learners.Learner.Query: without a table, a non-empty batch returns `None` where the source raises a `TypeError`.
- `deepcopy`: modelled by value semantics of the `tree` field. The in-place row edit `tree[0] = ...` becomes `SetRow`, which reassigns the field.
- Learners.CopyThenEdit: because tables are values, the model cannot express aliasing. The lemma would hold just as well if the constructor stored the caller's array without `deepcopy` (`self.tree = tree`). It therefore does not show that the copy at RTLearner.py:27 is needed, which is what the demonstration's non-aliasing asserts exercise.

=== FILE: builder.dfy ===
/**
 * Building a random regression tree table from a training set.
 *
 * The random source is an explicit tape of raw draws, consumed front to back:
 * picking an element of a list of length k uses one draw d as index d % k, and
 * a random row index below n uses one draw d as d % n. A tape that runs dry
 * ends the build with `RanOut`.
 */
module Builder {
  import opened Tables
  import opened Stats
  import opened Samples

  /** The features 0 .. w-1, the initial candidate pool (`list(range(num_feats))`). */
  function Range(w: nat): (r: seq<nat>)
    ensures |r| == w && forall i | 0 <= i < w :: r[i] == i
  {
    if w == 0 then [] else Range(w - 1) + [w - 1]
  }

  /** Removing the first occurrence of a pool member (`list.remove`) takes out exactly one copy of it. */
  function RemoveFirst(s: seq<nat>, x: nat): (r: seq<nat>)
    requires x in s
    ensures multiset(r) == multiset(s) - multiset{x}
    ensures |r| == |s| - 1 && forall y | y in r :: y in s
  {
    assert s == [s[0]] + s[1..];
    if s[0] == x then s[1..] else [s[0]] + RemoveFirst(s[1..], x)
  }

  /** r is what is left of t after reading a prefix of it. */
  predicate IsSuffix(r: seq<nat>, t: seq<nat>)
  {
    |r| <= |t| && r == t[|t| - |r|..]
  }

  /** What is left of what is left of t is what is left of t. */
  lemma SuffixTrans(a: seq<nat>, b: seq<nat>, c: seq<nat>)
    requires IsSuffix(b, a) && IsSuffix(c, b)
    ensures IsSuffix(c, a)
  {
    assert a[|a| - |b|..][|b| - |c|..] == a[|a| - |c|..];
  }

  /** Two sampled row indices and the draws left after sampling them. */
  datatype RowPair = Rows(r0: nat, r1: nat, rest: seq<nat>) | RowsRanOut

  /**
   * Draws a pair of row indices below n, redrawing the pair while both are the
   * same and there is more than one row. The pair is distinct whenever n > 1,
   * and the remaining draws are what is left of the tape after the pairs used.
   */
  function DrawRows(n: nat, tape: seq<nat>): (d: RowPair)
    requires n > 0
    ensures d.Rows? ==> d.r0 < n && d.r1 < n && (n > 1 ==> d.r0 != d.r1)
    ensures d.Rows? ==> |d.rest| <= |tape| - 2 && IsSuffix(d.rest, tape)
    decreases |tape|
  {
    if |tape| < 2 then RowsRanOut
    else
      var r0, r1 := tape[0] % n, tape[1] % n;
      if r0 == r1 && n > 1 then DrawRows(n, tape[2..]) else Rows(r0, r1, tape[2..])
  }

  /**
   * How the split search ends: a feature and split value were accepted (with
   * the candidates still in the pool, the accepted one included), the pool ran
   * out, or the tape did.
   */
  datatype SplitOutcome =
    | Accepted(feat: nat, split: real, remaining: seq<nat>, rest: seq<nat>)
    | Exhausted(rest: seq<nat>)
    | SearchRanOut

  /**
   * The split search over a candidate pool: pick a feature from the pool, split
   * on the mean of its values at two sampled rows, accept when both sides are
   * non-empty, otherwise drop the feature from the pool and try again.
   *
   * An accepted feature is still in the remaining pool, which is the original
   * pool less the features rejected before it (one round each), so at most
   * |pool| rounds are made (`SearchRounds`). Its split value is the mean of the feature at
   * two rows that differ whenever there is more than one row, and it separates
   * the rows into two non-empty groups.
   */
  function SearchSplit(X: seq<seq<real>>, pool: seq<nat>, tape: seq<nat>): (o: SplitOutcome)
    requires |X| > 0 && Rect(X, |X[0]|)
    requires forall f | f in pool :: f < |X[0]|
    ensures o.Accepted? ==> o.feat in pool && Splits(LeftMask(X, o.feat, o.split))
    decreases |pool|
  {
    if |pool| == 0 then Exhausted(tape)
    else if |tape| == 0 then SearchRanOut
    else
      var f := pool[tape[0] % |pool|];
      assert f in pool;
      match DrawRows(|X|, tape[1..])
      case RowsRanOut => SearchRanOut
      case Rows(r0, r1, rest) =>
        var s := (X[r0][f] + X[r1][f]) / 2.0;
        if Splits(LeftMask(X, f, s)) then Accepted(f, s, pool, rest)
        else SearchSplit(X, RemoveFirst(pool, f), rest)
  }

  /**
   * The number of rounds the split search completes (a round draws a feature
   * and two rows): a rejected round is followed by the search over the pool
   * without that feature, and an accepted round ends the search.
   */
  ghost function Rounds(X: seq<seq<real>>, pool: seq<nat>, tape: seq<nat>): nat
    requires |X| > 0 && Rect(X, |X[0]|)
    requires forall f | f in pool :: f < |X[0]|
    decreases |pool|
  {
    if |pool| == 0 || |tape| == 0 then 0
    else
      var f := pool[tape[0] % |pool|];
      assert f in pool;
      match DrawRows(|X|, tape[1..])
      case RowsRanOut => 0
      case Rows(r0, r1, rest) =>
        var s := (X[r0][f] + X[r1][f]) / 2.0;
        if Splits(LeftMask(X, f, s)) then 1 else 1 + Rounds(X, RemoveFirst(pool, f), rest)
  }

  /**
   * One round of the search that drew a feature f and two rows: it accepts f
   * when the split separates the rows, and otherwise goes on with f removed.
   */
  lemma SearchStep(X: seq<seq<real>>, pool: seq<nat>, tape: seq<nat>,
                   f: nat, r0: nat, r1: nat, s: real, rest: seq<nat>)
    requires |X| > 0 && Rect(X, |X[0]|)
    requires forall f | f in pool :: f < |X[0]|
    requires |pool| > 0 && |tape| > 0 && f == pool[tape[0] % |pool|] && f in pool
    requires DrawRows(|X|, tape[1..]) == Rows(r0, r1, rest) && s == (X[r0][f] + X[r1][f]) / 2.0
    ensures Splits(LeftMask(X, f, s)) ==> SearchSplit(X, pool, tape) == Accepted(f, s, pool, rest)
    ensures !Splits(LeftMask(X, f, s)) ==> SearchSplit(X, pool, tape) == SearchSplit(X, RemoveFirst(pool, f), rest)
  {
  }

  /** A round that accepts its feature is the last one. */
  lemma RoundsAccepted(X: seq<seq<real>>, pool: seq<nat>, tape: seq<nat>,
                       f: nat, r0: nat, r1: nat, s: real, rest: seq<nat>)
    requires |X| > 0 && Rect(X, |X[0]|)
    requires forall f | f in pool :: f < |X[0]|
    requires |pool| > 0 && |tape| > 0 && f == pool[tape[0] % |pool|] && f in pool
    requires DrawRows(|X|, tape[1..]) == Rows(r0, r1, rest) && s == (X[r0][f] + X[r1][f]) / 2.0
    requires Splits(LeftMask(X, f, s))
    ensures Rounds(X, pool, tape) == 1
  {
  }

  /** A round that rejects its feature is followed by the rounds over the pool without it. */
  lemma RoundsRejected(X: seq<seq<real>>, pool: seq<nat>, tape: seq<nat>,
                       f: nat, r0: nat, r1: nat, s: real, rest: seq<nat>)
    requires |X| > 0 && Rect(X, |X[0]|)
    requires forall f | f in pool :: f < |X[0]|
    requires |pool| > 0 && |tape| > 0 && f == pool[tape[0] % |pool|] && f in pool
    requires DrawRows(|X|, tape[1..]) == Rows(r0, r1, rest) && s == (X[r0][f] + X[r1][f]) / 2.0
    requires !Splits(LeftMask(X, f, s))
    ensures Rounds(X, pool, tape) == 1 + Rounds(X, RemoveFirst(pool, f), rest)
  {
  }

  /**
   * The search makes at most |pool| rounds, each rejected round removing its
   * feature from the pool once: an accepted feature is still in the remaining
   * pool, which is the original pool less one copy of each feature rejected
   * before it, so it has |pool| - Rounds + 1 members.
   */
  lemma {:induction false} SearchRounds(X: seq<seq<real>>, pool: seq<nat>, tape: seq<nat>)
    requires |X| > 0 && Rect(X, |X[0]|)
    requires forall f | f in pool :: f < |X[0]|
    ensures Rounds(X, pool, tape) <= |pool|
    ensures var o := SearchSplit(X, pool, tape);
      o.Accepted? ==>
        && o.feat in o.remaining && multiset(o.remaining) <= multiset(pool)
        && |o.remaining| == |pool| - Rounds(X, pool, tape) + 1
    decreases |pool|
  {
    if |pool| > 0 && |tape| > 0 {
      var f := pool[tape[0] % |pool|];
      assert f in pool;
      match DrawRows(|X|, tape[1..])
      case RowsRanOut =>
      case Rows(r0, r1, rest) =>
        var s := (X[r0][f] + X[r1][f]) / 2.0;
        SearchStep(X, pool, tape, f, r0, r1, s, rest);
        if Splits(LeftMask(X, f, s)) {
          RoundsAccepted(X, pool, tape, f, r0, r1, s, rest);
        } else {
          RoundsRejected(X, pool, tape, f, r0, r1, s, rest);
          var pool' := RemoveFirst(pool, f);
          SearchRounds(X, pool', rest);
          assert multiset(pool') <= multiset(pool);
        }
    }
  }

  /**
   * An accepted split value is the mean of the accepted feature at two sampled
   * rows, and those rows differ whenever there is more than one row.
   */
  lemma {:induction false} SearchSplitValue(X: seq<seq<real>>, pool: seq<nat>, tape: seq<nat>)
    requires |X| > 0 && Rect(X, |X[0]|)
    requires forall f | f in pool :: f < |X[0]|
    ensures var o := SearchSplit(X, pool, tape);
      o.Accepted? ==>
        exists r0, r1 :: 0 <= r0 < |X| && 0 <= r1 < |X| && (|X| > 1 ==> r0 != r1)
                         && o.split == (X[r0][o.feat] + X[r1][o.feat]) / 2.0
    decreases |pool|
  {
    if |pool| > 0 && |tape| > 0 {
      var f := pool[tape[0] % |pool|];
      assert f in pool;
      match DrawRows(|X|, tape[1..])
      case RowsRanOut =>
      case Rows(r0, r1, rest) =>
        var s := (X[r0][f] + X[r1][f]) / 2.0;
        SearchStep(X, pool, tape, f, r0, r1, s, rest);
        if !Splits(LeftMask(X, f, s)) {
          SearchSplitValue(X, RemoveFirst(pool, f), rest);
        }
    }
  }

  /** The search reads a prefix of the tape: the draws it leaves are the rest of the tape. */
  lemma {:induction false} SearchLeavesSuffix(X: seq<seq<real>>, pool: seq<nat>, tape: seq<nat>)
    requires |X| > 0 && Rect(X, |X[0]|)
    requires forall f | f in pool :: f < |X[0]|
    ensures var o := SearchSplit(X, pool, tape);
      !o.SearchRanOut? ==> IsSuffix(o.rest, tape)
    decreases |pool|
  {
    if |pool| > 0 && |tape| > 0 {
      var f := pool[tape[0] % |pool|];
      assert f in pool;
      match DrawRows(|X|, tape[1..])
      case RowsRanOut =>
      case Rows(r0, r1, rest) =>
        var s := (X[r0][f] + X[r1][f]) / 2.0;
        SearchStep(X, pool, tape, f, r0, r1, s, rest);
        SuffixTrans(tape, tape[1..], rest);
        if !Splits(LeftMask(X, f, s)) {
          var next := SearchSplit(X, RemoveFirst(pool, f), rest);
          SearchLeavesSuffix(X, RemoveFirst(pool, f), rest);
          if !next.SearchRanOut? {
            SuffixTrans(tape, rest, next.rest);
          }
        }
    }
  }

  /** The outcome of a build: the tree table and the draws left, or a dry tape. */
  datatype Grown = Grown(table: Table, rest: seq<nat>) | RanOut

  /**
   * The random tree for (X, Y). A leaf holding the most common target when there
   * are at most leafSize samples, when all targets are equal, or when no
   * feature of the pool gave a usable split; otherwise the accepted split's
   * root row followed by the left subtree (rows at most the split value) and
   * then the right subtree, built in that order from the same tape.
   *
   * The table is a full binary tree in pre-order that tests only existing
   * features and has at most 2|Y| - 1 rows (each leaf holds at least one
   * sample, `GrowAllReached`); the draws used are a prefix of the tape (`GrowLeavesSuffix`).
   */
  function Grow(X: seq<seq<real>>, Y: seq<real>, leafSize: int, tape: seq<nat>): (o: Grown)
    requires Sample(X, Y)
    ensures o.Grown? ==> PreOrder(o.table) && Fits(o.table, |X[0]|) && |o.table| <= 2 * |Y| - 1
    decreases |Y|
  {
    var leaf := Leaf(Mode(Y));
    if |Y| <= leafSize || AllSame(Y) then Grown([leaf], tape)
    else
      match SearchSplit(X, Range(|X[0]|), tape)
      case SearchRanOut => RanOut
      case Exhausted(rest) => Grown([leaf], rest)
      case Accepted(f, s, _, rest) =>
        var lm, rm := LeftMask(X, f, s), RightMask(X, f, s);
        SplitPartition(X, Y, f, s);
        match Grow(Select(X, lm), Select(Y, lm), leafSize, rest)
        case RanOut => RanOut
        case Grown(lt, rest') =>
          match Grow(Select(X, rm), Select(Y, rm), leafSize, rest')
          case RanOut => RanOut
          case Grown(rt, rest'') =>
            RootRowJoin(f, s, lt, rt);
            JoinPreOrder(f, s, lt, rt);
            JoinFits(f, s, lt, rt, |X[0]|);
            Grown([Node(f, s, 1, if |lt| == 1 then 2 else |lt| + 1)] + lt + rt, rest'')
  }

  /**
   * The row sampling as the source runs it: draw a pair, then redraw while the
   * two rows coincide and there is more than one row.
   */
  method SampleRows(n: nat, tape: seq<nat>) returns (d: RowPair)
    requires n > 0
    ensures d == DrawRows(n, tape)
  {
    if |tape| < 2 {
      return RowsRanOut;
    }
    var r0: nat, r1: nat := tape[0] % n, tape[1] % n;
    var draws := tape[2..];
    while r0 == r1 && n > 1
      invariant r0 < n && r1 < n
      invariant DrawRows(n, tape)
                == if r0 == r1 && n > 1 then DrawRows(n, draws) else Rows(r0, r1, draws)
      decreases |draws|
    {
      if |draws| < 2 {
        return RowsRanOut;
      }
      r0, r1 := draws[0] % n, draws[1] % n;
      draws := draws[2..];
    }
    return Rows(r0, r1, draws);
  }

  /**
   * The split search loop as the source runs it: each round picks a feature
   * from the pool and samples two rows; a round whose split leaves one side
   * empty removes its feature from the pool. It ends exactly as the search
   * specification says.
   */
  method FindSplit(X: seq<seq<real>>, tape: seq<nat>) returns (o: SplitOutcome)
    requires |X| > 0 && Rect(X, |X[0]|)
    ensures o == SearchSplit(X, Range(|X[0]|), tape)
  {
    var n, w := |X|, |X[0]|;
    var avail: seq<nat> := Range(w);
    var draws: seq<nat> := tape;
    while |avail| > 0
      invariant forall f | f in avail :: f < w
      invariant SearchSplit(X, avail, draws) == SearchSplit(X, Range(w), tape)
      decreases |avail|
    {
      if |draws| == 0 {
        return SearchRanOut;
      }
      var f := avail[draws[0] % |avail|];
      assert f in avail;
      ghost var round := draws;
      var pair := SampleRows(n, draws[1..]);
      if pair.RowsRanOut? {
        return SearchRanOut;
      }
      var r0, r1 := pair.r0, pair.r1;
      draws := pair.rest;
      var s := (X[r0][f] + X[r1][f]) / 2.0;
      SearchStep(X, avail, round, f, r0, r1, s, draws);
      if Splits(LeftMask(X, f, s)) {
        return Accepted(f, s, avail, draws);
      }
      avail := RemoveFirst(avail, f);
    }
    return Exhausted(draws);
  }

  /**
   * Builds the tree recursively as the source does: the leaf rule, the split
   * search, the left then right subtree, and the root row whose right offset
   * is 2 for a one-row left subtree and |left| + 1 otherwise.
   */
  method BuildTree(X: seq<seq<real>>, Y: seq<real>, leafSize: int, tape: seq<nat>) returns (o: Grown)
    requires Sample(X, Y)
    ensures o == Grow(X, Y, leafSize, tape)
    decreases |Y|
  {
    var leaf := Leaf(Mode(Y));
    if |Y| <= leafSize || AllSame(Y) {
      return Grown([leaf], tape);
    }
    var search := FindSplit(X, tape);
    match search
    case SearchRanOut =>
      return RanOut;
    case Exhausted(rest) =>
      return Grown([leaf], rest);
    case Accepted(f, s, _, rest) =>
      var lm, rm := LeftMask(X, f, s), RightMask(X, f, s);
      SplitPartition(X, Y, f, s);
      var left := BuildTree(Select(X, lm), Select(Y, lm), leafSize, rest);
      if left.RanOut? {
        return RanOut;
      }
      var right := BuildTree(Select(X, rm), Select(Y, rm), leafSize, left.rest);
      if right.RanOut? {
        return RanOut;
      }
      var start := if |left.table| == 1 then 2 else |left.table| + 1;
      return Grown([Node(f, s, 1, start)] + left.table + right.table, right.rest);
  }
}

=== FILE: grow_facts.dfy ===
/**
 * What the builder guarantees about the tables it produces, and how queries on
 * them relate to the training data they were built from.
 */
module GrowFacts {
  import opened Tables
  import opened TreeQuery
  import opened Stats
  import opened Samples
  import opened Builder

  /** Every feature that t reads exists in every row of X. */
  predicate FitsAll(t: Table, X: seq<seq<real>>)
  {
    forall j | 0 <= j < |X| :: Fits(t, |X[j]|)
  }

  /** The training rows of X can be walked through t. */
  predicate Walkable(t: Table, X: seq<seq<real>>, Y: seq<real>)
  {
    Forward(t) && |t| > 0 && |X| == |Y| && FitsAll(t, X)
  }

  /**
   * The targets, in training order, of the samples whose walk through t ends
   * at row k: the sample group that row k predicts for.
   */
  ghost function Group(t: Table, X: seq<seq<real>>, Y: seq<real>, k: nat): seq<real>
    requires Walkable(t, X, Y)
    decreases |X|
  {
    if |X| == 0 then []
    else (if Reach(t, 0, X[0]) == k then [Y[0]] else []) + Group(t, X[1..], Y[1..], k)
  }

  /**
   * Leaf purity: every leaf row that some training samples reach stores the
   * most common target of those samples.
   */
  ghost predicate LeafPurity(t: Table, X: seq<seq<real>>, Y: seq<real>)
  {
    && Walkable(t, X, Y)
    && forall k | 0 <= k < |t| && t[k].Leaf? && Group(t, X, Y, k) != [] ::
         t[k].value == Mode(Group(t, X, Y, k))
  }

  /** Every sample belongs to the group of the leaf its walk ends at. */
  lemma {:induction false} InOwnGroup(t: Table, X: seq<seq<real>>, Y: seq<real>, i: nat)
    requires Walkable(t, X, Y) && i < |X|
    ensures Y[i] in Group(t, X, Y, Reach(t, 0, X[i]))
    decreases |X|
  {
    var k := Reach(t, 0, X[i]);
    if i > 0 {
      assert X[1..][i - 1] == X[i] && Y[1..][i - 1] == Y[i];
      InOwnGroup(t, X[1..], Y[1..], i - 1);
    }
  }

  /** A one-leaf table sends every sample to row 0, whose group is all of Y. */
  lemma {:induction false} GroupOfLeaf(v: real, X: seq<seq<real>>, Y: seq<real>)
    requires |X| == |Y|
    ensures Walkable([Leaf(v)], X, Y) && Group([Leaf(v)], X, Y, 0) == Y
    decreases |X|
  {
    if |X| > 0 {
      GroupOfLeaf(v, X[1..], Y[1..]);
      assert Y == [Y[0]] + Y[1..];
    }
  }

  /** A leaf holding the mode of all targets is pure. */
  lemma LeafIsPure(X: seq<seq<real>>, Y: seq<real>)
    requires |X| == |Y| && |Y| > 0
    ensures LeafPurity([Leaf(Mode(Y))], X, Y)
  {
    GroupOfLeaf(Mode(Y), X, Y);
  }

  /** Walkability of a joined table over a set of rows of one width. */
  lemma JoinWalkable(f: nat, s: real, lt: Table, rt: Table, X: seq<seq<real>>, Y: seq<real>, w: nat)
    requires Forward(lt) && Forward(rt) && |lt| > 0 && |rt| > 0
    requires Fits(lt, w) && Fits(rt, w) && f < w
    requires |X| == |Y| && Rect(X, w)
    ensures Walkable(Join(f, s, lt, rt), X, Y) && Walkable(lt, X, Y) && Walkable(rt, X, Y)
  {
    JoinForward(f, s, lt, rt);
    JoinFits(f, s, lt, rt, w);
  }

  /**
   * The group of a left-subtree leaf of a joined table is the group of that
   * leaf in the left subtree alone, over the samples at most the split value.
   */
  lemma {:induction false} GroupLeft(f: nat, s: real, lt: Table, rt: Table,
                                     X: seq<seq<real>>, Y: seq<real>, m: seq<bool>, k: nat, row: nat, w: nat)
    requires Forward(lt) && Forward(rt) && |lt| > 0 && |rt| > 0
    requires Fits(lt, w) && Fits(rt, w) && f < w
    requires |X| == |Y| && Rect(X, w)
    requires |m| == |X| && forall j | 0 <= j < |X| :: m[j] == (X[j][f] <= s)
    requires k < |lt| && row == 1 + k
    ensures Walkable(Join(f, s, lt, rt), X, Y) && Walkable(lt, Select(X, m), Select(Y, m))
    ensures Group(Join(f, s, lt, rt), X, Y, row) == Group(lt, Select(X, m), Select(Y, m), k)
    decreases |X|
  {
    JoinWalkable(f, s, lt, rt, X, Y, w);
    var xs, ys := Select(X, m), Select(Y, m);
    assert Walkable(lt, xs, ys) by {
      SelectWidth(X, m, w);
    }
    if |X| > 0 {
      var t := Join(f, s, lt, rt);
      GroupLeft(f, s, lt, rt, X[1..], Y[1..], m[1..], k, row, w);
      ReachJoin(f, s, lt, rt, X[0]);
      if m[0] {
        assert xs[0] == X[0] && xs[1..] == Select(X[1..], m[1..]);
        assert ys[0] == Y[0] && ys[1..] == Select(Y[1..], m[1..]);
      } else {
        assert xs == Select(X[1..], m[1..]) && ys == Select(Y[1..], m[1..]);
      }
    }
  }

  /**
   * The group of a right-subtree leaf of a joined table is the group of that
   * leaf in the right subtree alone, over the samples above the split value.
   */
  lemma {:induction false} GroupRight(f: nat, s: real, lt: Table, rt: Table,
                                      X: seq<seq<real>>, Y: seq<real>, m: seq<bool>, k: nat, row: nat, w: nat)
    requires Forward(lt) && Forward(rt) && |lt| > 0 && |rt| > 0
    requires Fits(lt, w) && Fits(rt, w) && f < w
    requires |X| == |Y| && Rect(X, w)
    requires |m| == |X| && forall j | 0 <= j < |X| :: m[j] == (X[j][f] > s)
    requires k < |rt| && row == 1 + |lt| + k
    ensures Walkable(Join(f, s, lt, rt), X, Y) && Walkable(rt, Select(X, m), Select(Y, m))
    ensures Group(Join(f, s, lt, rt), X, Y, row) == Group(rt, Select(X, m), Select(Y, m), k)
    decreases |X|
  {
    JoinWalkable(f, s, lt, rt, X, Y, w);
    var xs, ys := Select(X, m), Select(Y, m);
    assert Walkable(rt, xs, ys) by {
      SelectWidth(X, m, w);
    }
    if |X| > 0 {
      var t := Join(f, s, lt, rt);
      GroupRight(f, s, lt, rt, X[1..], Y[1..], m[1..], k, row, w);
      ReachJoin(f, s, lt, rt, X[0]);
      if m[0] {
        assert xs[0] == X[0] && xs[1..] == Select(X[1..], m[1..]);
        assert ys[0] == Y[0] && ys[1..] == Select(Y[1..], m[1..]);
      } else {
        assert xs == Select(X[1..], m[1..]) && ys == Select(Y[1..], m[1..]);
      }
    }
  }

  /**
   * A leaf row of t whose sample group is the group of a leaf row of a pure
   * table u, and which stores the same row, stores its group's most common target.
   */
  lemma PureTransfer(t: Table, X: seq<seq<real>>, Y: seq<real>, k: nat,
                     u: Table, xs: seq<seq<real>>, ys: seq<real>, j: nat)
    requires Walkable(t, X, Y) && LeafPurity(u, xs, ys)
    requires k < |t| && j < |u| && t[k] == u[j] && t[k].Leaf?
    requires Group(t, X, Y, k) == Group(u, xs, ys, j) && Group(t, X, Y, k) != []
    ensures t[k].value == Mode(Group(t, X, Y, k))
  {
  }

  /**
   * A leaf of a joined table in the rows of the left subtree (1 .. |lt|) that
   * some samples reach stores their most common target, when the left subtree
   * is pure over the samples at most the split value: those are exactly the
   * samples that reach it.
   */
  lemma PureLeftRow(f: nat, s: real, lt: Table, rt: Table,
                    X: seq<seq<real>>, Y: seq<real>, m: seq<bool>, w: nat, k: nat)
    requires Forward(lt) && Forward(rt) && |lt| > 0 && |rt| > 0
    requires Fits(lt, w) && Fits(rt, w) && f < w
    requires |X| == |Y| && Rect(X, w)
    requires |m| == |X| && forall j | 0 <= j < |X| :: m[j] == (X[j][f] <= s)
    requires LeafPurity(lt, Select(X, m), Select(Y, m))
    requires 1 <= k <= |lt| && Join(f, s, lt, rt)[k].Leaf?
    requires Walkable(Join(f, s, lt, rt), X, Y) && Group(Join(f, s, lt, rt), X, Y, k) != []
    ensures Join(f, s, lt, rt)[k].value == Mode(Group(Join(f, s, lt, rt), X, Y, k))
  {
    var kl := k - 1;
    GroupLeft(f, s, lt, rt, X, Y, m, kl, k, w);
    JoinLeftRow(f, s, lt, rt, kl, k);
    PureTransfer(Join(f, s, lt, rt), X, Y, k, lt, Select(X, m), Select(Y, m), kl);
  }

  /** The mirror image of PureLeftRow for a leaf in the rows of the right subtree. */
  lemma PureRightRow(f: nat, s: real, lt: Table, rt: Table,
                     X: seq<seq<real>>, Y: seq<real>, m: seq<bool>, w: nat, k: nat)
    requires Forward(lt) && Forward(rt) && |lt| > 0 && |rt| > 0
    requires Fits(lt, w) && Fits(rt, w) && f < w
    requires |X| == |Y| && Rect(X, w)
    requires |m| == |X| && forall j | 0 <= j < |X| :: m[j] == (X[j][f] > s)
    requires LeafPurity(rt, Select(X, m), Select(Y, m))
    requires |lt| < k < 1 + |lt| + |rt| && Join(f, s, lt, rt)[k].Leaf?
    requires Walkable(Join(f, s, lt, rt), X, Y) && Group(Join(f, s, lt, rt), X, Y, k) != []
    ensures Join(f, s, lt, rt)[k].value == Mode(Group(Join(f, s, lt, rt), X, Y, k))
  {
    var kr := k - 1 - |lt|;
    GroupRight(f, s, lt, rt, X, Y, m, kr, k, w);
    JoinRightRow(f, s, lt, rt, kr, k);
    PureTransfer(Join(f, s, lt, rt), X, Y, k, rt, Select(X, m), Select(Y, m), kr);
  }

  /**
   * Routing consistency at one split: purity of both subtrees over their halves
   * gives purity of the joined table over the whole training set.
   */
  lemma JoinPure(f: nat, s: real, lt: Table, rt: Table, X: seq<seq<real>>, Y: seq<real>)
    requires Sample(X, Y) && f < |X[0]|
    requires Forward(lt) && Forward(rt) && |lt| > 0 && |rt| > 0
    requires Fits(lt, |X[0]|) && Fits(rt, |X[0]|)
    requires LeafPurity(lt, Select(X, LeftMask(X, f, s)), Select(Y, LeftMask(X, f, s)))
    requires LeafPurity(rt, Select(X, RightMask(X, f, s)), Select(Y, RightMask(X, f, s)))
    ensures LeafPurity(Join(f, s, lt, rt), X, Y)
  {
    var t := Join(f, s, lt, rt);
    JoinWalkable(f, s, lt, rt, X, Y, |X[0]|);
    forall k | 0 <= k < |t| && t[k].Leaf? && Group(t, X, Y, k) != []
      ensures t[k].value == Mode(Group(t, X, Y, k))
    {
      if k <= |lt| {
        PureLeftRow(f, s, lt, rt, X, Y, LeftMask(X, f, s), |X[0]|, k);
      } else {
        PureRightRow(f, s, lt, rt, X, Y, RightMask(X, f, s), |X[0]|, k);
      }
    }
  }

  /**
   * Routing consistency of a whole built tree: for every training sample, the
   * query walk ends at the leaf built from the sample group containing it, and
   * that leaf stores the group's most common target.
   */
  lemma {:induction false} GrowPure(X: seq<seq<real>>, Y: seq<real>, leafSize: int, tape: seq<nat>)
    requires Sample(X, Y) && Grow(X, Y, leafSize, tape).Grown?
    ensures LeafPurity(Grow(X, Y, leafSize, tape).table, X, Y)
    decreases |Y|
  {
    var t := Grow(X, Y, leafSize, tape).table;
    if |Y| <= leafSize || AllSame(Y) {
      LeafIsPure(X, Y);
    } else {
      match SearchSplit(X, Range(|X[0]|), tape)
      case Exhausted(rest) =>
        LeafIsPure(X, Y);
      case Accepted(f, s, _, rest) =>
        var lm, rm := LeftMask(X, f, s), RightMask(X, f, s);
        SplitPartition(X, Y, f, s);
        var l := Grow(Select(X, lm), Select(Y, lm), leafSize, rest);
        var r := Grow(Select(X, rm), Select(Y, rm), leafSize, l.rest);
        GrowPure(Select(X, lm), Select(Y, lm), leafSize, rest);
        GrowPure(Select(X, rm), Select(Y, rm), leafSize, l.rest);
        PreOrderForward(l.table);
        PreOrderForward(r.table);
        assert t == Join(f, s, l.table, r.table);
        JoinPure(f, s, l.table, r.table, X, Y);
    }
  }

  /** Every leaf row of t is reached by the walk of at least one training sample. */
  ghost predicate AllReached(t: Table, X: seq<seq<real>>, Y: seq<real>)
  {
    && Walkable(t, X, Y)
    && forall k | 0 <= k < |t| && t[k].Leaf? :: Group(t, X, Y, k) != []
  }

  /**
   * When every leaf of each subtree is reached by the samples on its side of
   * the split, every leaf of the joined table is reached by some sample.
   */
  lemma JoinReached(f: nat, s: real, lt: Table, rt: Table, X: seq<seq<real>>, Y: seq<real>)
    requires Sample(X, Y) && f < |X[0]|
    requires Forward(lt) && Forward(rt) && |lt| > 0 && |rt| > 0
    requires Fits(lt, |X[0]|) && Fits(rt, |X[0]|)
    requires AllReached(lt, Select(X, LeftMask(X, f, s)), Select(Y, LeftMask(X, f, s)))
    requires AllReached(rt, Select(X, RightMask(X, f, s)), Select(Y, RightMask(X, f, s)))
    ensures AllReached(Join(f, s, lt, rt), X, Y)
  {
    var t := Join(f, s, lt, rt);
    JoinWalkable(f, s, lt, rt, X, Y, |X[0]|);
    forall k | 0 <= k < |t| && t[k].Leaf?
      ensures Group(t, X, Y, k) != []
    {
      if k <= |lt| {
        ReachedLeftRow(f, s, lt, rt, X, Y, LeftMask(X, f, s), |X[0]|, k);
      } else {
        ReachedRightRow(f, s, lt, rt, X, Y, RightMask(X, f, s), |X[0]|, k);
      }
    }
  }

  /** A leaf of a joined table in the rows of the left subtree is reached when that leaf of the left subtree is. */
  lemma ReachedLeftRow(f: nat, s: real, lt: Table, rt: Table,
                       X: seq<seq<real>>, Y: seq<real>, m: seq<bool>, w: nat, k: nat)
    requires Forward(lt) && Forward(rt) && |lt| > 0 && |rt| > 0
    requires Fits(lt, w) && Fits(rt, w) && f < w
    requires |X| == |Y| && Rect(X, w)
    requires |m| == |X| && forall j | 0 <= j < |X| :: m[j] == (X[j][f] <= s)
    requires AllReached(lt, Select(X, m), Select(Y, m))
    requires 1 <= k <= |lt| && Join(f, s, lt, rt)[k].Leaf?
    ensures Walkable(Join(f, s, lt, rt), X, Y) && Group(Join(f, s, lt, rt), X, Y, k) != []
  {
    GroupLeft(f, s, lt, rt, X, Y, m, k - 1, k, w);
    JoinLeftRow(f, s, lt, rt, k - 1, k);
  }

  /** The mirror image of ReachedLeftRow for a leaf in the rows of the right subtree. */
  lemma ReachedRightRow(f: nat, s: real, lt: Table, rt: Table,
                        X: seq<seq<real>>, Y: seq<real>, m: seq<bool>, w: nat, k: nat)
    requires Forward(lt) && Forward(rt) && |lt| > 0 && |rt| > 0
    requires Fits(lt, w) && Fits(rt, w) && f < w
    requires |X| == |Y| && Rect(X, w)
    requires |m| == |X| && forall j | 0 <= j < |X| :: m[j] == (X[j][f] > s)
    requires AllReached(rt, Select(X, m), Select(Y, m))
    requires |lt| < k < 1 + |lt| + |rt| && Join(f, s, lt, rt)[k].Leaf?
    ensures Walkable(Join(f, s, lt, rt), X, Y) && Group(Join(f, s, lt, rt), X, Y, k) != []
  {
    GroupRight(f, s, lt, rt, X, Y, m, k - 1 - |lt|, k, w);
    JoinRightRow(f, s, lt, rt, k - 1 - |lt|, k);
  }

  /**
   * No leaf of a built table is empty: every leaf row is reached by the walk
   * of at least one training sample, since a split is accepted only when both
   * sides keep a sample. So `GrowPure` constrains every leaf of the table.
   */
  lemma {:induction false} GrowAllReached(X: seq<seq<real>>, Y: seq<real>, leafSize: int, tape: seq<nat>)
    requires Sample(X, Y) && Grow(X, Y, leafSize, tape).Grown?
    ensures AllReached(Grow(X, Y, leafSize, tape).table, X, Y)
    decreases |Y|
  {
    var t := Grow(X, Y, leafSize, tape).table;
    if |Y| <= leafSize || AllSame(Y) {
      GroupOfLeaf(Mode(Y), X, Y);
    } else {
      match SearchSplit(X, Range(|X[0]|), tape)
      case Exhausted(rest) =>
        GroupOfLeaf(Mode(Y), X, Y);
      case Accepted(f, s, _, rest) =>
        var lm, rm := LeftMask(X, f, s), RightMask(X, f, s);
        SplitPartition(X, Y, f, s);
        var l := Grow(Select(X, lm), Select(Y, lm), leafSize, rest);
        var r := Grow(Select(X, rm), Select(Y, rm), leafSize, l.rest);
        GrowAllReached(Select(X, lm), Select(Y, lm), leafSize, rest);
        GrowAllReached(Select(X, rm), Select(Y, rm), leafSize, l.rest);
        PreOrderForward(l.table);
        PreOrderForward(r.table);
        assert t == Join(f, s, l.table, r.table);
        JoinReached(f, s, l.table, r.table, X, Y);
    }
  }

  /**
   * Querying a training point of a built tree returns the most common target of
   * the sample group that the point belongs to (the group whose walk ends at the
   * same leaf), and that group holds the point's own target.
   */
  lemma QueryTrainingPoint(X: seq<seq<real>>, Y: seq<real>, leafSize: int, tape: seq<nat>, i: nat)
    requires Sample(X, Y) && Grow(X, Y, leafSize, tape).Grown? && i < |X|
    ensures var t := Grow(X, Y, leafSize, tape).table;
      && Walkable(t, X, Y) && Fits(t, |X[i]|)
      && Y[i] in Group(t, X, Y, Reach(t, 0, X[i]))
      && Search(t, 0, X[i]) == Mode(Group(t, X, Y, Reach(t, 0, X[i])))
  {
    var t := Grow(X, Y, leafSize, tape).table;
    GrowPure(X, Y, leafSize, tape);
    InOwnGroup(t, X, Y, i);
  }

  /**
   * The leaf rule: at most leafSize samples, or a single distinct target, give
   * a one-row table holding the most common target, with the tape untouched;
   * when all targets are equal that value is the common target.
   */
  lemma GrowLeafRule(X: seq<seq<real>>, Y: seq<real>, leafSize: int, tape: seq<nat>)
    requires Sample(X, Y) && (|Y| <= leafSize || AllSame(Y))
    ensures Grow(X, Y, leafSize, tape) == Grown([Leaf(Mode(Y))], tape)
    ensures AllSame(Y) ==> Grow(X, Y, leafSize, tape) == Grown([Leaf(Y[0])], tape)
  {
    if AllSame(Y) {
      ModeOfUniform(Y);
    }
  }

  /**
   * A built table is a well-formed full binary tree: pre-order with the root in
   * row 0, every offset followed from an internal row stays inside the table,
   * its row count is odd and at most 2|Y| - 1.
   */
  lemma GrowWellFormed(X: seq<seq<real>>, Y: seq<real>, leafSize: int, tape: seq<nat>)
    requires Sample(X, Y) && Grow(X, Y, leafSize, tape).Grown?
    ensures var t := Grow(X, Y, leafSize, tape).table;
      && PreOrder(t) && Forward(t) && Fits(t, |X[0]|)
      && |t| % 2 == 1 && |t| <= 2 * |Y| - 1
  {
    PreOrderForward(Grow(X, Y, leafSize, tape).table);
  }

  /**
   * A build reads a prefix of the tape: the draws it leaves are the rest of the
   * tape, the left subtree reading after the search and the right one after it.
   */
  lemma {:induction false} GrowLeavesSuffix(X: seq<seq<real>>, Y: seq<real>, leafSize: int, tape: seq<nat>)
    requires Sample(X, Y) && Grow(X, Y, leafSize, tape).Grown?
    ensures IsSuffix(Grow(X, Y, leafSize, tape).rest, tape)
    decreases |Y|
  {
    if !(|Y| <= leafSize || AllSame(Y)) {
      SearchLeavesSuffix(X, Range(|X[0]|), tape);
      match SearchSplit(X, Range(|X[0]|), tape)
      case Exhausted(rest) =>
      case Accepted(f, s, _, rest) =>
        var lm, rm := LeftMask(X, f, s), RightMask(X, f, s);
        SplitPartition(X, Y, f, s);
        var l := Grow(Select(X, lm), Select(Y, lm), leafSize, rest);
        var r := Grow(Select(X, rm), Select(Y, rm), leafSize, l.rest);
        GrowLeavesSuffix(Select(X, lm), Select(Y, lm), leafSize, rest);
        GrowLeavesSuffix(Select(X, rm), Select(Y, rm), leafSize, l.rest);
        SuffixTrans(tape, rest, l.rest);
        SuffixTrans(tape, l.rest, r.rest);
    }
  }

  /** With all rows identical, no pool feature can split them, whatever the draws. */
  lemma {:induction false} NoSplitOnIdenticalRows(X: seq<seq<real>>, pool: seq<nat>, tape: seq<nat>)
    requires |X| > 0 && Rect(X, |X[0]|) && forall f | f in pool :: f < |X[0]|
    requires forall j | 0 <= j < |X| :: X[j] == X[0]
    ensures !SearchSplit(X, pool, tape).Accepted?
    decreases |pool|
  {
    if |pool| > 0 && |tape| > 0 {
      var f := pool[tape[0] % |pool|];
      assert f in pool;
      match DrawRows(|X|, tape[1..])
      case RowsRanOut =>
      case Rows(r0, r1, rest) =>
        var s := (X[r0][f] + X[r1][f]) / 2.0;
        SearchStep(X, pool, tape, f, r0, r1, s, rest);
        var m := LeftMask(X, f, s);
        forall j | 0 <= j < |X| ensures m[j] {
        }
        assert !Splits(m);
        NoSplitOnIdenticalRows(X, RemoveFirst(pool, f), rest);
    }
  }

  /**
   * Exhaustion fallback: when every feature column is constant (all rows are
   * identical), the search pool always runs out and the tree is a single leaf
   * holding the most common target, even if the targets differ.
   */
  lemma IdenticalRowsGiveLeaf(X: seq<seq<real>>, Y: seq<real>, leafSize: int, tape: seq<nat>)
    requires Sample(X, Y) && forall j | 0 <= j < |X| :: X[j] == X[0]
    requires Grow(X, Y, leafSize, tape).Grown?
    ensures Grow(X, Y, leafSize, tape).table == [Leaf(Mode(Y))]
  {
    NoSplitOnIdenticalRows(X, Range(|X[0]|), tape);
  }

  /**
   * With two rows whose single feature differs, the search never exhausts the
   * pool: whichever pair of distinct rows is drawn, the split is on feature 0 at
   * the mean of the two values, and it is accepted.
   */
  lemma TwoRowSearch(X: seq<seq<real>>, tape: seq<nat>)
    requires |X| == 2 && Rect(X, 1) && X[0][0] != X[1][0]
    ensures var o := SearchSplit(X, Range(1), tape);
      && !o.Exhausted?
      && (o.Accepted? ==> o.feat == 0 && o.split == (X[0][0] + X[1][0]) / 2.0)
  {
    if |tape| > 0 {
      var pool := Range(1);
      assert pool == [0] && pool[tape[0] % 1] == 0;
      match DrawRows(2, tape[1..])
      case RowsRanOut =>
      case Rows(r0, r1, rest) =>
        var s := (X[r0][0] + X[r1][0]) / 2.0;
        DistinctValuesSplit(X, 0, r0, r1);
        SearchStep(X, pool, tape, 0, r0, r1, s, rest);
        assert s == (X[0][0] + X[1][0]) / 2.0;
    }
  }

  /**
   * Splitting two rows at the mean of their differing single feature sends the
   * lower row, with its target, to the left and the higher one to the right.
   */
  lemma TwoRowHalves(X: seq<seq<real>>, Y: seq<real>, lo: nat)
    requires Sample(X, Y) && |X| == 2 && |X[0]| == 1 && X[0][0] != X[1][0]
    requires lo == if X[0][0] < X[1][0] then 0 else 1
    ensures var s := (X[0][0] + X[1][0]) / 2.0;
      var lm, rm := LeftMask(X, 0, s), RightMask(X, 0, s);
      && Select(X, lm) == [X[lo]] && Select(Y, lm) == [Y[lo]]
      && Select(X, rm) == [X[1 - lo]] && Select(Y, rm) == [Y[1 - lo]]
  {
    var s := (X[0][0] + X[1][0]) / 2.0;
    var lm, rm := LeftMask(X, 0, s), RightMask(X, 0, s);
    assert lm == [lo == 0, lo == 1] && rm == [lo == 1, lo == 0];
  }

  /** A split over two single leaves is three rows: the split, then the left and right leaf. */
  lemma JoinLeaves(f: nat, s: real, a: real, b: real)
    ensures Join(f, s, [Leaf(a)], [Leaf(b)]) == [Node(f, s, 1, 2), Leaf(a), Leaf(b)]
  {
  }

  /** A single sample always becomes a single leaf holding its target. */
  lemma SingleSample(x: seq<real>, y: real, leafSize: int, tape: seq<nat>)
    ensures Sample([x], [y]) && Grow([x], [y], leafSize, tape) == Grown([Leaf(y)], tape)
  {
    assert AllSame([y]);
    GrowLeafRule([x], [y], leafSize, tape);
  }

  /** Of two different targets, each occurs once, so the first one is the most common. */
  lemma ModeOfTwo(Y: seq<real>)
    requires |Y| == 2 && Y[0] != Y[1]
    ensures Mode(Y) == Y[0]
  {
    ModeIsMostCommon(Y);
    assert Y[1..] == [Y[1]];
    assert Count(Y, Y[0]) == 1 && Count(Y, Y[1]) == 1;
    assert Y[..1] == [Y[0]];
  }

  /**
   * Two samples with one feature whose values differ and whose targets differ,
   * and leafSize >= 2: the tree is one leaf holding the first target (both are
   * equally common, so the first encountered wins).
   */
  lemma TwoSamplesTie(X: seq<seq<real>>, Y: seq<real>, leafSize: int, tape: seq<nat>)
    requires Sample(X, Y) && |X| == 2 && Y[0] != Y[1] && leafSize >= 2
    ensures Grow(X, Y, leafSize, tape) == Grown([Leaf(Y[0])], tape)
  {
    GrowLeafRule(X, Y, leafSize, tape);
    ModeOfTwo(Y);
  }

  /**
   * One step of the build: with the leaf rule off and a split accepted, the
   * table is the root row over the two subtrees built from the halves, the left
   * one first from the search's leftover draws, the right one from the left's.
   */
  lemma GrowAccepted(X: seq<seq<real>>, Y: seq<real>, leafSize: int, tape: seq<nat>,
                     f: nat, s: real, pool: seq<nat>, rest: seq<nat>,
                     lt: Table, rt: Table, r1: seq<nat>, r2: seq<nat>)
    requires Sample(X, Y) && !(|Y| <= leafSize || AllSame(Y))
    requires SearchSplit(X, Range(|X[0]|), tape) == Accepted(f, s, pool, rest) && f < |X[0]|
    requires Sample(Select(X, LeftMask(X, f, s)), Select(Y, LeftMask(X, f, s)))
    requires Sample(Select(X, RightMask(X, f, s)), Select(Y, RightMask(X, f, s)))
    requires Grow(Select(X, LeftMask(X, f, s)), Select(Y, LeftMask(X, f, s)), leafSize, rest) == Grown(lt, r1)
    requires Grow(Select(X, RightMask(X, f, s)), Select(Y, RightMask(X, f, s)), leafSize, r1) == Grown(rt, r2)
    ensures Grow(X, Y, leafSize, tape) == Grown(Join(f, s, lt, rt), r2)
  {
    RootRowJoin(f, s, lt, rt);
  }

  /**
   * The search step of a build on two samples with one differing feature that
   * did not run out of draws: a split on feature 0 at the mean was accepted.
   */
  lemma TwoSamplesSearch(X: seq<seq<real>>, Y: seq<real>, leafSize: int, tape: seq<nat>) returns (o: SplitOutcome)
    requires Sample(X, Y) && |X| == 2 && |X[0]| == 1 && X[0][0] != X[1][0] && Y[0] != Y[1]
    requires leafSize < 2 && Grow(X, Y, leafSize, tape).Grown?
    ensures o == SearchSplit(X, Range(|X[0]|), tape)
    ensures o.Accepted? && o.feat == 0 && o.split == (X[0][0] + X[1][0]) / 2.0
  {
    assert !AllSame(Y);
    TwoRowSearch(X, tape);
    o := SearchSplit(X, Range(1), tape);
  }

  /** Each half of two samples split at the mean of their differing feature becomes one leaf. */
  lemma TwoSamplesHalves(X: seq<seq<real>>, Y: seq<real>, leafSize: int, rest: seq<nat>, lo: nat, s: real)
    requires Sample(X, Y) && |X| == 2 && |X[0]| == 1 && X[0][0] != X[1][0]
    requires lo == (if X[0][0] < X[1][0] then 0 else 1) && s == (X[0][0] + X[1][0]) / 2.0
    ensures Sample(Select(X, LeftMask(X, 0, s)), Select(Y, LeftMask(X, 0, s)))
    ensures Sample(Select(X, RightMask(X, 0, s)), Select(Y, RightMask(X, 0, s)))
    ensures Grow(Select(X, LeftMask(X, 0, s)), Select(Y, LeftMask(X, 0, s)), leafSize, rest) == Grown([Leaf(Y[lo])], rest)
    ensures Grow(Select(X, RightMask(X, 0, s)), Select(Y, RightMask(X, 0, s)), leafSize, rest) == Grown([Leaf(Y[1 - lo])], rest)
  {
    TwoRowHalves(X, Y, lo);
    SingleSample(X[lo], Y[lo], leafSize, rest);
    SingleSample(X[1 - lo], Y[1 - lo], leafSize, rest);
  }

  /**
   * The build on two samples with one differing feature and leafSize < 2: the
   * search accepts a split at the mean of the two values, each side receives
   * one sample and becomes a leaf, lower value on the left.
   */
  lemma TwoSamplesGrow(X: seq<seq<real>>, Y: seq<real>, leafSize: int, tape: seq<nat>, lo: nat)
    returns (o: SplitOutcome)
    requires Sample(X, Y) && |X| == 2 && |X[0]| == 1 && X[0][0] != X[1][0] && Y[0] != Y[1]
    requires leafSize < 2 && Grow(X, Y, leafSize, tape).Grown?
    requires lo == if X[0][0] < X[1][0] then 0 else 1
    ensures o.Accepted? && o.split == (X[0][0] + X[1][0]) / 2.0
    ensures Grow(X, Y, leafSize, tape) == Grown(Join(0, o.split, [Leaf(Y[lo])], [Leaf(Y[1 - lo])]), o.rest)
  {
    o := TwoSamplesSearch(X, Y, leafSize, tape);
    TwoSamplesHalves(X, Y, leafSize, o.rest, lo, o.split);
    GrowAccepted(X, Y, leafSize, tape, 0, o.split, o.remaining, o.rest, [Leaf(Y[lo])], [Leaf(Y[1 - lo])], o.rest, o.rest);
  }

  /**
   * Two samples with one feature whose values differ, and leafSize < 2: for any draws
   * that do not run dry, the tree is one split at the mean of the two values with the
   * target of the lower sample (row lo) on the left and the other on the right.
   */
  lemma TwoSamplesSplit(X: seq<seq<real>>, Y: seq<real>, leafSize: int, tape: seq<nat>, lo: nat)
    requires Sample(X, Y) && |X| == 2 && |X[0]| == 1 && X[0][0] != X[1][0] && Y[0] != Y[1]
    requires leafSize < 2 && Grow(X, Y, leafSize, tape).Grown?
    requires lo == if X[0][0] < X[1][0] then 0 else 1
    ensures Grow(X, Y, leafSize, tape).table
            == [Node(0, (X[0][0] + X[1][0]) / 2.0, 1, 2), Leaf(Y[lo]), Leaf(Y[1 - lo])]
  {
    var g := Grow(X, Y, leafSize, tape);
    var o := TwoSamplesGrow(X, Y, leafSize, tape, lo);
    ThreeRows(g, o.split, (X[0][0] + X[1][0]) / 2.0, Y[lo], Y[1 - lo], o.rest);
    assert g.table == [Node(0, (X[0][0] + X[1][0]) / 2.0, 1, 2), Leaf(Y[lo]), Leaf(Y[1 - lo])];
    assert g == Grow(X, Y, leafSize, tape);
  }

  /** A build equal to the join of two leaves at split s is the three rows split, left leaf, right leaf. */
  lemma ThreeRows(g: Grown, s: real, mean: real, a: real, b: real, rest: seq<nat>)
    requires g == Grown(Join(0, s, [Leaf(a)], [Leaf(b)]), rest) && s == mean
    ensures g.table == [Node(0, mean, 1, 2), Leaf(a), Leaf(b)]
  {
    JoinLeaves(0, s, a, b);
  }
}

=== FILE: learner.dfy ===
/**
 * The learner object: its leaf size and its (possibly absent) tree table,
 * fitted by appending freshly built tables and queried point by point.
 */
module Learners {
  import opened Tables
  import opened TreeQuery
  import opened Samples
  import opened Builder
  import opened GrowFacts

  /**
   * A random tree learner. The table is held as a value, so a learner built
   * from another learner's table owns an independent copy of it (the source's
   * deep copy).
   */
  class Learner {
    var leafSize: int
    var tree: Option<Table>

    /** A learner with the given leaf size and, optionally, a copy of an existing table. */
    constructor (leafSize: int, tree: Option<Table>)
      ensures this.leafSize == leafSize && this.tree == tree
    {
      this.leafSize := leafSize;
      this.tree := tree;
    }

    /**
     * Fits the learner to (X, Y): builds a table from the draws and stores it
     * when there was none, or stacks it below the existing table otherwise.
     * Returns the draws left over, or None when the draws ran out (and then
     * the learner is unchanged).
     */
    method AddEvidence(X: seq<seq<real>>, Y: seq<real>, tape: seq<nat>) returns (rest: Option<seq<nat>>)
      requires Sample(X, Y)
      modifies this
      ensures leafSize == old(leafSize)
      ensures match Grow(X, Y, leafSize, tape)
        case RanOut => tree == old(tree) && rest == None
        case Grown(t, r) =>
          && rest == Some(r)
          && tree == Some(if old(tree).None? then t else old(tree).value + t)
    {
      var built := BuildTree(X, Y, leafSize, tape);
      match built
      case RanOut =>
        rest := None;
      case Grown(t, r) =>
        if tree.None? {
          tree := Some(t);
        } else {
          tree := Some(tree.value + t);
        }
        rest := Some(r);
    }

    /**
     * Predicts each point by walking the table from row 0: one prediction per
     * point, in input order. Without a table only the empty batch has an
     * answer (any point would index a missing table).
     */
    method Query(points: seq<seq<real>>) returns (preds: Option<seq<real>>)
      requires tree.Some? ==> Forward(tree.value) && |tree.value| > 0
      requires tree.Some? ==> forall p | p in points :: Fits(tree.value, |p|)
      ensures tree.None? ==> (preds.Some? <==> points == [])
      ensures tree.None? && preds.Some? ==> preds.value == []
      ensures tree.Some? ==> preds.Some? && |preds.value| == |points|
      ensures tree.Some? ==>
        forall i | 0 <= i < |points| :: preds.value[i] == Search(tree.value, 0, points[i])
    {
      if tree.None? {
        preds := if points == [] then Some([]) else None;
        return;
      }
      var t := tree.value;
      var out: seq<real> := [];
      for i := 0 to |points|
        invariant |out| == i
        invariant forall j | 0 <= j < i :: out[j] == Search(t, 0, points[j])
      {
        assert points[i] in points;
        out := out + [Search(t, 0, points[i])];
      }
      preds := Some(out);
    }

    /** Overwrites row i of the table in place (the caller's `tree[i] = row`). */
    method SetRow(i: nat, row: Row)
      requires tree.Some? && i < |tree.value|
      modifies this
      ensures leafSize == old(leafSize)
      ensures tree == Some(old(tree).value[i := row])
    {
      tree := Some(tree.value[i := row]);
    }
  }

  /**
   * A learner created from another learner's table holds the same table, and
   * editing a row of the new learner's table leaves the original's untouched.
   */
  method CopyThenEdit(a: Learner, row: Row) returns (b: Learner)
    requires a.tree.Some? && |a.tree.value| > 0
    ensures fresh(b) && b != a
    ensures a.tree == old(a.tree) && a.leafSize == old(a.leafSize)
    ensures b.tree == Some(a.tree.value[0 := row])
  {
    b := new Learner(a.leafSize, a.tree);
    b.SetRow(0, row);
  }

  /**
   * Fitting a learner whose table answers from row 0 stacks a table that does
   * the same; the combined table gives exactly the old table's prediction for
   * every point that both tables can read.
   */
  lemma AppendedTableAnswersAsBefore(
    prior: Table, X: seq<seq<real>>, Y: seq<real>, leafSize: int, tape: seq<nat>, x: seq<real>)
    requires Forward(prior) && |prior| > 0 && Fits(prior, |x|)
    requires Sample(X, Y) && Grow(X, Y, leafSize, tape).Grown? && |x| >= |X[0]|
    ensures var t := Grow(X, Y, leafSize, tape).table;
      && Forward(prior + t) && Fits(prior + t, |x|)
      && Search(prior + t, 0, x) == Search(prior, 0, x)
  {
    var t := Grow(X, Y, leafSize, tape).table;
    GrowWellFormed(X, Y, leafSize, tape);
    AppendKeepsSearch(prior, t, x);
  }

  /**
   * Fitting a fresh learner gives it a table it can query: forward offsets and
   * a root, reading only features the training rows have.
   */
  lemma FreshTableQueryable(X: seq<seq<real>>, Y: seq<real>, leafSize: int, tape: seq<nat>)
    requires Sample(X, Y) && Grow(X, Y, leafSize, tape).Grown?
    ensures var t := Grow(X, Y, leafSize, tape).table;
      Forward(t) && |t| > 0 && forall j | 0 <= j < |X| :: Fits(t, |X[j]|)
  {
    GrowWellFormed(X, Y, leafSize, tape);
  }
}

=== FILE: query.dfy ===
/**
 * Prediction: walking a tree table from a row, by relative offsets, down to a
 * leaf, comparing the point's feature value with each split value on the way.
 */
module TreeQuery {
  import opened Tables

  /**
   * The index of the leaf row that the walk from `row` reaches for point x:
   * left (row + left offset) when x[feat] <= split, right otherwise.
   */
  ghost function Reach(t: Table, row: nat, x: seq<real>): (k: nat)
    requires Forward(t) && row < |t| && Fits(t, |x|)
    ensures row <= k < |t| && t[k].Leaf?
    decreases |t| - row
  {
    match t[row]
    case Leaf(_) => row
    case Node(f, s, l, r) =>
      if x[f] <= s then Reach(t, row + l, x) else Reach(t, row + r, x)
  }

  /**
   * The prediction for x from the subtree rooted at `row`: the value stored in
   * the leaf row that the comparisons along the path lead to.
   */
  function Search(t: Table, row: nat, x: seq<real>): (v: real)
    requires Forward(t) && row < |t| && Fits(t, |x|)
    ensures v == t[Reach(t, row, x)].value
    decreases |t| - row
  {
    match t[row]
    case Leaf(v) => v
    case Node(f, s, l, r) =>
      if x[f] <= s then Search(t, row + l, x) else Search(t, row + r, x)
  }

  /**
   * The walk ends, and the prediction is the value stored in a leaf row at or
   * below the starting row.
   */
  lemma SearchEndsAtLeaf(t: Table, row: nat, x: seq<real>)
    requires Forward(t) && row < |t| && Fits(t, |x|)
    ensures exists k :: row <= k < |t| && t[k] == Leaf(Search(t, row, x))
  {
    var k := Reach(t, row, x);
    assert t[k] == Leaf(Search(t, row, x));
  }

  /**
   * A walk inside a table embedded at row o of a larger table visits the same
   * rows, shifted by o: offsets are relative, so position does not matter.
   */
  lemma {:induction false} ReachShift(u: Table, t: Table, o: nat, i: nat, row: nat, x: seq<real>)
    requires Forward(t) && i < |t| && Fits(t, |x|)
    requires Forward(u) && Fits(u, |x|) && Embeds(u, t, o) && row == o + i
    ensures Reach(u, row, x) == o + Reach(t, i, x)
    decreases |t| - i
  {
    assert u[row] == t[i];
    match t[i]
    case Leaf(_) =>
      assert Reach(u, row, x) == row && Reach(t, i, x) == i;
    case Node(f, sv, l, r) =>
      var next, nextRow := if x[f] <= sv then i + l else i + r, if x[f] <= sv then row + l else row + r;
      assert Reach(t, i, x) == Reach(t, next, x);
      assert Reach(u, row, x) == Reach(u, nextRow, x);
      ReachShift(u, t, o, next, nextRow, x);
  }

  /**
   * The first step of a walk from the root of a joined table: the point goes into
   * the left subtree (rows 1 ..) when x[f] <= s and into the right subtree (rows
   * |lt|+1 ..) otherwise, and then walks that subtree as if it stood alone.
   */
  lemma ReachJoin(f: nat, s: real, lt: Table, rt: Table, x: seq<real>)
    requires Forward(lt) && Forward(rt) && |lt| > 0 && |rt| > 0
    requires Fits(lt, |x|) && Fits(rt, |x|) && f < |x|
    ensures Forward(Join(f, s, lt, rt)) && Fits(Join(f, s, lt, rt), |x|)
    ensures Reach(Join(f, s, lt, rt), 0, x)
            == if x[f] <= s then 1 + Reach(lt, 0, x) else 1 + |lt| + Reach(rt, 0, x)
  {
    var t := Join(f, s, lt, rt);
    JoinForward(f, s, lt, rt);
    JoinFits(f, s, lt, rt, |x|);
    JoinEmbeds(f, s, lt, rt);
    assert t[0] == Node(f, s, 1, |lt| + 1);
    if x[f] <= s {
      assert Reach(t, 0, x) == Reach(t, 1, x);
      ReachShift(t, lt, 1, 0, 1, x);
    } else {
      assert Reach(t, 0, x) == Reach(t, 1 + |lt|, x);
      ReachShift(t, rt, 1 + |lt|, 0, 1 + |lt|, x);
    }
  }

  /**
   * Stacking a second table below a forward table does not change any
   * prediction made from row 0: the walk never leaves the first table.
   */
  lemma AppendKeepsSearch(a: Table, b: Table, x: seq<real>)
    requires Forward(a) && Forward(b) && |a| > 0 && Fits(a, |x|) && Fits(b, |x|)
    ensures Forward(a + b) && Fits(a + b, |x|)
    ensures Search(a + b, 0, x) == Search(a, 0, x)
  {
    ForwardConcat(a, b);
    FitsConcat(a, b, |x|);
    assert Embeds(a + b, a, 0);
    ReachShift(a + b, a, 0, 0, 0, x);
    assert (a + b)[Reach(a, 0, x)] == a[Reach(a, 0, x)];
  }
}

=== FILE: samples.dfy ===
/**
 * Training data and the boolean-mask row selection the builder partitions it
 * with (`dataX[mask]`, `dataY[mask]`).
 */
module Samples {

  /**
   * A training set: a non-empty matrix X whose rows all have the same width
   * (the number of features), paired with one target per row.
   */
  predicate Sample(X: seq<seq<real>>, Y: seq<real>)
  {
    && |X| == |Y|
    && |X| > 0
    && Rect(X, |X[0]|)
  }

  /** The feature rows all have width w. */
  predicate Rect(X: seq<seq<real>>, w: nat)
  {
    forall j | 0 <= j < |X| :: |X[j]| == w
  }

  /** The number of true entries of a mask. */
  function Trues(m: seq<bool>): (c: nat)
    ensures c <= |m|
  {
    if |m| == 0 then 0 else (if m[0] then 1 else 0) + Trues(m[1..])
  }

  /** A mask selects something iff it has a true entry, and leaves something out iff it has a false one. */
  lemma {:induction false} TruesIn(m: seq<bool>)
    ensures Trues(m) > 0 <==> true in m
    ensures Trues(m) < |m| <==> false in m
  {
    if |m| > 0 {
      TruesIn(m[1..]);
      assert m == [m[0]] + m[1..];
    }
  }

  /** The elements of s at the positions where m is true, in their original order. */
  function Select<T>(s: seq<T>, m: seq<bool>): (r: seq<T>)
    requires |m| == |s|
    ensures |r| == Trues(m)
  {
    if |s| == 0 then [] else (if m[0] then [s[0]] else []) + Select(s[1..], m[1..])
  }

  /** Selecting rows of one width gives rows of that width. */
  lemma {:induction false} SelectWidth(X: seq<seq<real>>, m: seq<bool>, w: nat)
    requires |m| == |X| && Rect(X, w)
    ensures Rect(Select(X, m), w)
  {
    if |X| > 0 {
      SelectWidth(X[1..], m[1..], w);
    }
  }

  /** The rows whose feature f is at most s (the source's `dataX[:, f] <= split_val`). */
  function LeftMask(X: seq<seq<real>>, f: nat, s: real): (m: seq<bool>)
    requires forall j | 0 <= j < |X| :: f < |X[j]|
    ensures |m| == |X|
    ensures forall j | 0 <= j < |X| :: m[j] == (X[j][f] <= s)
  {
    seq(|X|, j requires 0 <= j < |X| => X[j][f] <= s)
  }

  /** The rows whose feature f exceeds s (the source's `dataX[:, f] > split_val`). */
  function RightMask(X: seq<seq<real>>, f: nat, s: real): (m: seq<bool>)
    requires forall j | 0 <= j < |X| :: f < |X[j]|
    ensures |m| == |X|
    ensures forall j | 0 <= j < |X| :: m[j] == (X[j][f] > s)
  {
    seq(|X|, j requires 0 <= j < |X| => X[j][f] > s)
  }

  /**
   * A mask separates the rows into two groups: it takes both values (the
   * source's `len(np.unique(left_index)) != 1`).
   */
  predicate Splits(m: seq<bool>)
  {
    true in m && false in m
  }

  /**
   * Selecting with a mask and with its complement splits s exactly: every
   * element lands on exactly one side.
   */
  lemma {:induction false} SelectComplement<T>(s: seq<T>, m: seq<bool>, n: seq<bool>)
    requires |m| == |s| && |n| == |s|
    requires forall j | 0 <= j < |s| :: n[j] == !m[j]
    ensures multiset(Select(s, m)) + multiset(Select(s, n)) == multiset(s)
  {
    if |s| > 0 {
      SelectComplement(s[1..], m[1..], n[1..]);
      assert s == [s[0]] + s[1..];
      var a, b := Select(s[1..], m[1..]), Select(s[1..], n[1..]);
      if m[0] {
        assert Select(s, m) == [s[0]] + a && Select(s, n) == b;
      } else {
        assert Select(s, m) == a && Select(s, n) == [s[0]] + b;
      }
    }
  }

  /** The rows a mask with a true entry selects form a training set of the same width. */
  lemma SelectSample(X: seq<seq<real>>, Y: seq<real>, m: seq<bool>)
    requires Sample(X, Y) && |m| == |X| && true in m
    ensures Sample(Select(X, m), Select(Y, m)) && |Select(X, m)[0]| == |X[0]|
  {
    TruesIn(m);
    SelectWidth(X, m, |X[0]|);
  }

  /**
   * An accepted split leaves two smaller training sets of the same width: the
   * rows at most the split value and the rows above it, both non-empty, whose
   * sizes add up to the whole.
   */
  lemma SplitPartition(X: seq<seq<real>>, Y: seq<real>, f: nat, s: real)
    requires Sample(X, Y) && f < |X[0]|
    requires Splits(LeftMask(X, f, s))
    ensures var lm, rm := LeftMask(X, f, s), RightMask(X, f, s);
      && Sample(Select(X, lm), Select(Y, lm)) && |Select(X, lm)[0]| == |X[0]|
      && Sample(Select(X, rm), Select(Y, rm)) && |Select(X, rm)[0]| == |X[0]|
      && 0 < |Select(Y, lm)| < |Y| && 0 < |Select(Y, rm)| < |Y|
      && |Select(Y, lm)| + |Select(Y, rm)| == |Y|
  {
    var lm, rm := LeftMask(X, f, s), RightMask(X, f, s);
    SelectComplement(Y, lm, rm);
    var j :| 0 <= j < |lm| && !lm[j];
    assert rm[j];
    SelectSample(X, Y, lm);
    SelectSample(X, Y, rm);
    assert |multiset(Select(Y, lm))| + |multiset(Select(Y, rm))| == |multiset(Y)|;
  }

  /**
   * The split is exact: every sample (row and target) goes to exactly one of
   * the two sides, and an accepted split leaves neither side empty.
   */
  lemma SplitExact(X: seq<seq<real>>, Y: seq<real>, f: nat, s: real)
    requires Sample(X, Y) && f < |X[0]|
    ensures var lm, rm := LeftMask(X, f, s), RightMask(X, f, s);
      && multiset(Select(X, lm)) + multiset(Select(X, rm)) == multiset(X)
      && multiset(Select(Y, lm)) + multiset(Select(Y, rm)) == multiset(Y)
      && (Splits(lm) <==> Select(X, lm) != [] && Select(X, rm) != [])
  {
    var lm, rm := LeftMask(X, f, s), RightMask(X, f, s);
    SelectComplement(X, lm, rm);
    SelectComplement(Y, lm, rm);
    TruesIn(lm);
    TruesIn(rm);
    if Select(X, rm) != [] {
      var j :| 0 <= j < |rm| && rm[j];
      assert !lm[j];
    }
    if false in lm {
      var j :| 0 <= j < |lm| && !lm[j];
      assert rm[j];
    }
  }

  /**
   * The mean of two different values separates them: the smaller lies at or
   * below it and the larger above it, so a split on two rows whose feature
   * values differ is never degenerate.
   */
  lemma DistinctValuesSplit(X: seq<seq<real>>, f: nat, r0: nat, r1: nat)
    requires forall j | 0 <= j < |X| :: f < |X[j]|
    requires r0 < |X| && r1 < |X| && X[r0][f] != X[r1][f]
    ensures Splits(LeftMask(X, f, (X[r0][f] + X[r1][f]) / 2.0))
  {
    var m := LeftMask(X, f, (X[r0][f] + X[r1][f]) / 2.0);
    if X[r0][f] < X[r1][f] {
      assert m[r0] && !m[r1];
    } else {
      assert m[r1] && !m[r0];
    }
  }
}

=== FILE: stats.dfy ===
/**
 * The leaf value: the most common target, ties going to the value that occurs
 * first (what `Counter(ys).most_common(1)` returns, since a Counter keeps its
 * keys in first-occurrence order and the maximum keeps the first of equals).
 */
module Stats {

  /** How many times v occurs in ys. */
  function Count(ys: seq<real>, v: real): (c: nat)
    ensures c <= |ys|
  {
    if |ys| == 0 then 0 else (if ys[0] == v then 1 else 0) + Count(ys[1..], v)
  }

  /** The count is v's multiplicity in the targets: the tally a `Counter` keeps for v. */
  lemma {:induction false} CountTally(ys: seq<real>, v: real)
    ensures Count(ys, v) == multiset(ys)[v]
  {
    if |ys| > 0 {
      CountTally(ys[1..], v);
      assert ys == [ys[0]] + ys[1..];
    }
  }

  /** A value occurs at least once exactly when it is one of the targets. */
  lemma {:induction false} CountIn(ys: seq<real>, v: real)
    ensures Count(ys, v) > 0 <==> v in ys
  {
    if |ys| > 0 {
      CountIn(ys[1..], v);
      assert ys == [ys[0]] + ys[1..];
    }
  }

  /** All targets are equal: for non-empty ys, the set of distinct targets is a singleton. */
  predicate AllSame(ys: seq<real>): (b: bool)
    ensures |ys| > 0 ==> (b <==> (set y | y in ys) == {ys[0]})
  {
    SingletonValues(ys);
    forall j | 0 <= j < |ys| :: ys[j] == ys[0]
  }

  /** Every position holds ys[0] exactly when ys[0] is the only value present. */
  lemma SingletonValues(ys: seq<real>)
    ensures |ys| > 0 ==> ((forall j | 0 <= j < |ys| :: ys[j] == ys[0]) <==> (set y | y in ys) == {ys[0]})
  {
    if |ys| > 0 && forall j | 0 <= j < |ys| :: ys[j] == ys[0] {
      forall y | y in ys ensures y == ys[0] {
        var j :| 0 <= j < |ys| && ys[j] == y;
      }
    }
    var values := set y | y in ys;
    if |ys| > 0 && values == {ys[0]} {
      forall j | 0 <= j < |ys| ensures ys[j] == ys[0] {
        assert ys[j] in values;
      }
    }
  }

  /**
   * Scans positions i .. |ys|-1 keeping p, the position of the best value so
   * far; p moves only to a value that occurs strictly more often, so among
   * equally frequent values the one seen first is kept.
   */
  function ModeFrom(ys: seq<real>, i: nat, p: nat): (q: nat)
    requires p < |ys| && i <= |ys|
    ensures q < |ys|
    ensures q == p || i <= q
    ensures Count(ys, ys[p]) <= Count(ys, ys[q])
    decreases |ys| - i
  {
    if i == |ys| then p
    else ModeFrom(ys, i + 1, if Count(ys, ys[i]) > Count(ys, ys[p]) then i else p)
  }

  /**
   * The scan's invariant: if p is a most common value among the first i
   * positions and strictly more common than every value before it, the scan
   * ends at a position with the same two properties over all of ys.
   */
  lemma {:induction false} ModeFromBest(ys: seq<real>, i: nat, p: nat)
    requires p < i <= |ys|
    requires forall j | 0 <= j < i :: Count(ys, ys[j]) <= Count(ys, ys[p])
    requires forall j | 0 <= j < p :: Count(ys, ys[j]) < Count(ys, ys[p])
    ensures forall j | 0 <= j < |ys| :: Count(ys, ys[j]) <= Count(ys, ys[ModeFrom(ys, i, p)])
    ensures forall j | 0 <= j < ModeFrom(ys, i, p) :: Count(ys, ys[j]) < Count(ys, ys[ModeFrom(ys, i, p)])
    decreases |ys| - i
  {
    if i < |ys| {
      ModeFromBest(ys, i + 1, if Count(ys, ys[i]) > Count(ys, ys[p]) then i else p);
    }
  }

  /** The most common value of a non-empty ys (`Counter(ys).most_common(1)[0][0]`). */
  function Mode(ys: seq<real>): (m: real)
    requires |ys| > 0
    ensures m in ys
  {
    ys[ModeFrom(ys, 1, 0)]
  }

  /** No value occurs more often than the mode. */
  lemma ModeCountMax(ys: seq<real>, v: real)
    requires |ys| > 0
    ensures Count(ys, v) <= Count(ys, Mode(ys))
  {
    ModeFromBest(ys, 1, 0);
    CountIn(ys, v);
    if v in ys {
      var j :| 0 <= j < |ys| && ys[j] == v;
    }
  }

  /** The mode occurs no later than any other value that is just as frequent. */
  lemma ModeFirst(ys: seq<real>, j: nat)
    requires j < |ys| && Count(ys, ys[j]) == Count(ys, Mode(ys))
    ensures Mode(ys) in ys[..j + 1]
  {
    var p := ModeFrom(ys, 1, 0);
    ModeFromBest(ys, 1, 0);
    assert p <= j;
    assert ys[..j + 1][p] == ys[p];
  }

  /**
   * Mode picks a most common value, first-encountered among equals: it occurs
   * in ys, no value occurs more often, and it occurs no later than any other
   * value that is just as frequent.
   */
  lemma ModeIsMostCommon(ys: seq<real>)
    requires |ys| > 0
    ensures Mode(ys) in ys
    ensures forall v :: Count(ys, v) <= Count(ys, Mode(ys))
    ensures forall j | 0 <= j < |ys| :: Count(ys, ys[j]) == Count(ys, Mode(ys)) ==> Mode(ys) in ys[..j + 1]
  {
    assert ys[ModeFrom(ys, 1, 0)] == Mode(ys);
    forall v ensures Count(ys, v) <= Count(ys, Mode(ys)) {
      ModeCountMax(ys, v);
    }
    forall j | 0 <= j < |ys| && Count(ys, ys[j]) == Count(ys, Mode(ys))
      ensures Mode(ys) in ys[..j + 1]
    {
      ModeFirst(ys, j);
    }
  }

  /** When all targets are equal, the leaf value is that common target. */
  lemma ModeOfUniform(ys: seq<real>)
    requires |ys| > 0 && AllSame(ys)
    ensures Mode(ys) == ys[0]
  {
    ModeIsMostCommon(ys);
    var j :| 0 <= j < |ys| && ys[j] == Mode(ys);
  }
}

=== FILE: tables.dfy ===
/**
 * The random tree's storage format: a flat table of rows, one per tree node,
 * where an internal row names its children by row offsets relative to itself.
 */
module Tables {

  /** The usual optional value; the learner's tree is absent until it is fitted. */
  datatype Option<T> = None | Some(value: T)

  /**
   * One row of the table. A leaf stores its prediction (feature index -1 in the
   * source's numeric table); an internal node stores the feature it tests, the
   * split value, and the offsets of its left and right children.
   */
  datatype Row =
    | Leaf(value: real)
    | Node(feat: nat, split: real, left: nat, right: nat)

  type Table = seq<Row>

  /**
   * Every internal row points strictly forward and stays inside the table.
   * This is what a walk from any row needs in order to end at a leaf.
   */
  predicate Forward(t: Table)
  {
    forall i | 0 <= i < |t| && t[i].Node? ::
      1 <= t[i].left && 1 <= t[i].right && i + t[i].left < |t| && i + t[i].right < |t|
  }

  /** Every feature index the table tests exists in a point of width w. */
  predicate Fits(t: Table, w: nat)
  {
    forall i | 0 <= i < |t| && t[i].Node? :: t[i].feat < w
  }

  /**
   * The builder's layout: the table is one full binary tree in pre-order. Row 0
   * is the root; an internal root has left offset 1, its left subtree fills rows
   * 1 .. right-1 and its right subtree fills the rows from `right` to the end.
   */
  predicate PreOrder(t: Table)
    decreases |t|
  {
    && |t| > 0
    && match t[0]
       case Leaf(_) => |t| == 1
       case Node(_, _, l, r) => l == 1 && 2 <= r < |t| && PreOrder(t[1..r]) && PreOrder(t[r..])
  }

  /** The pre-order assembly of a root row over two subtree tables. */
  function Join(f: nat, s: real, lt: Table, rt: Table): (t: Table)
    ensures |t| == 1 + |lt| + |rt|
  {
    [Node(f, s, 1, |lt| + 1)] + lt + rt
  }

  /** Joining two pre-order trees gives a pre-order tree. */
  lemma JoinPreOrder(f: nat, s: real, lt: Table, rt: Table)
    requires PreOrder(lt) && PreOrder(rt)
    ensures PreOrder(Join(f, s, lt, rt))
  {
    var t := Join(f, s, lt, rt);
    assert t[1..|lt| + 1] == lt;
    assert t[|lt| + 1..] == rt;
  }

  /** Rows o .. o+|t|-1 of u are the rows of t, in order. */
  predicate Embeds(u: Table, t: Table, o: nat)
  {
    o + |t| <= |u| && forall j | 0 <= j < |t| :: u[o + j] == t[j]
  }

  /** A joined table holds the left subtree from row 1 and the right one from row |lt| + 1. */
  lemma JoinEmbeds(f: nat, s: real, lt: Table, rt: Table)
    ensures Embeds(Join(f, s, lt, rt), lt, 1) && Embeds(Join(f, s, lt, rt), rt, 1 + |lt|)
  {
  }

  /** Row j of the left subtree is row 1 + j of the joined table. */
  lemma JoinLeftRow(f: nat, s: real, lt: Table, rt: Table, j: nat, row: nat)
    requires j < |lt| && row == 1 + j
    ensures Join(f, s, lt, rt)[row] == lt[j]
  {
  }

  /** Row j of the right subtree is row 1 + |lt| + j of the joined table. */
  lemma JoinRightRow(f: nat, s: real, lt: Table, rt: Table, j: nat, row: nat)
    requires j < |rt| && row == 1 + |lt| + j
    ensures Join(f, s, lt, rt)[row] == rt[j]
  {
  }

  /**
   * The root row the builder writes, whose right offset is 2 for a one-row left
   * subtree and |lt| + 1 otherwise, always points right past the left subtree:
   * the builder's table is the pre-order join.
   */
  lemma RootRowJoin(f: nat, s: real, lt: Table, rt: Table)
    requires |lt| > 0
    ensures [Node(f, s, 1, if |lt| == 1 then 2 else |lt| + 1)] + lt + rt == Join(f, s, lt, rt)
  {
  }

  /** Two forward tables stacked one above the other still form a forward table. */
  lemma ForwardConcat(a: Table, b: Table)
    requires Forward(a) && Forward(b)
    ensures Forward(a + b)
  {
    forall i | 0 <= i < |a + b| && (a + b)[i].Node?
      ensures 1 <= (a + b)[i].left && 1 <= (a + b)[i].right
      ensures i + (a + b)[i].left < |a + b| && i + (a + b)[i].right < |a + b|
    {
      if i >= |a| {
        assert (a + b)[i] == b[i - |a|];
      }
    }
  }

  /** Stacking tables keeps every feature the tables read inside the point width. */
  lemma FitsConcat(a: Table, b: Table, w: nat)
    requires Fits(a, w) && Fits(b, w)
    ensures Fits(a + b, w)
  {
    forall i | 0 <= i < |a + b| && (a + b)[i].Node?
      ensures (a + b)[i].feat < w
    {
      if i >= |a| {
        assert (a + b)[i] == b[i - |a|];
      }
    }
  }

  /** A joined table is forward whenever its two subtrees are. */
  lemma JoinForward(f: nat, s: real, lt: Table, rt: Table)
    requires Forward(lt) && Forward(rt) && |lt| > 0 && |rt| > 0
    ensures Forward(Join(f, s, lt, rt))
  {
    ForwardConcat(lt, rt);
    var t := Join(f, s, lt, rt);
    var m := lt + rt;
    assert t == [t[0]] + m;
    forall i | 0 <= i < |t| && t[i].Node?
      ensures 1 <= t[i].left && 1 <= t[i].right && i + t[i].left < |t| && i + t[i].right < |t|
    {
      if i > 0 {
        assert t[i] == m[i - 1];
      }
    }
  }

  /** A joined table fits a width that its root feature and both subtrees fit. */
  lemma JoinFits(f: nat, s: real, lt: Table, rt: Table, w: nat)
    requires Fits(lt, w) && Fits(rt, w) && f < w
    ensures Fits(Join(f, s, lt, rt), w)
  {
    FitsConcat(lt, rt, w);
    var t := Join(f, s, lt, rt);
    var m := lt + rt;
    assert t == [t[0]] + m;
    forall i | 0 <= i < |t| && t[i].Node?
      ensures t[i].feat < w
    {
      if i > 0 {
        assert t[i] == m[i - 1];
      }
    }
  }

  /**
   * A pre-order table is a full binary tree: every offset stays in bounds and
   * moves forward, and the row count is odd (one more leaf than internal rows).
   */
  lemma {:induction false} PreOrderForward(t: Table)
    requires PreOrder(t)
    ensures Forward(t) && |t| % 2 == 1
    decreases |t|
  {
    match t[0]
    case Leaf(_) =>
    case Node(f, s, l, r) =>
      var lt, rt := t[1..r], t[r..];
      PreOrderForward(lt);
      PreOrderForward(rt);
      assert t == Join(f, s, lt, rt);
      JoinForward(f, s, lt, rt);
  }
}
